=== FILE: README.md ===
# Titanic chatbot: the visualization directive of `query_titanic`

The backend of the Titanic chatbot sends a question to a language model.
It then looks in the answer for a visualization directive such as
`HISTOGRAM:Age|Age Distribution` or `BAR:Sex:Survived|Survival by sex`.
It removes the directive from the answer shown to the user and hands the
directive to one of four chart renderers. This project models that path in
Dafny:

- `Text`: the Python string operations involved. These are `str.strip()`
  (with Python's `isspace` set), `str.split` on one character, `sep.join`,
  and `str.replace(old, "")`.
- `Pattern`: the regular expression `(HISTOGRAM|BAR|PIE|SCATTER):([^\|]+)\|(.+)`
  written out as an explicit matcher (`MatchAt`, `Search`). `Spells` gives
  the same pattern as a language, and lemmas prove the two agree.
- `Charts`: the data frame as the renderers see it, and the column checks
  of `create_histogram`, `create_grouped_bar`, `create_pie_chart` and
  `create_scatter_plot`. It also models the exceptions on that path
  (`AttributeError`, the `ValueError` of a two-way unpack, pandas' `KeyError`).
  A chart that would be drawn is represented by its kind, its columns and
  its title.
- `Query`: how `query_titanic` normalises the column field, dispatches on
  the keyword, catches exceptions into an error note, and builds the answer
  it returns.

Two points where the code behaves differently from what a reader might
expect:

- The title group reaches the renderers untrimmed; nothing in
  `Backend/main.py` strips it.
- `create_grouped_bar` has a multi-key branch (`Backend/main.py:130-133`),
  but the two-way unpack `group_col, value_col = columns.split(":")` at
  line 80 raises first whenever the field holds more than one colon, so
  that branch is never reached from the endpoint.
  `Query.DispatchBarWithManyNames` and `Query.BarDispatch` state this.

## Model

| member | source | states |
|---|---|---|
| Text.LeadingSpaces | Backend/main.py:74 | the length of the longest all-whitespace prefix (`isspace` characters only) |
| Text.Strip | Backend/main.py:74 | the result has no whitespace at either end, and is a slice of the input with only whitespace cut on both sides |
| Text.StripCharacterized | Backend/main.py:74 | any split of a string into whitespace, a trimmed core and whitespace gives that core as the stripped result |
| Text.IndexFrom | Backend/main.py:68 | the first position at or after `i` holding the character, or the length when there is none |
| Text.IndexFromIs | Backend/main.py:68 | a position holding the character with none of them before it is what the search finds |
| Text.Split | Backend/main.py:73 | `split` gives at least one piece, none holds the separator, and joining the pieces with the separator rebuilds the input |
| Text.SplitJoin | Backend/main.py:73 | splitting a join of separator-free pieces returns exactly those pieces |
| Text.SplitCount | Backend/main.py:80 | `split` gives one more piece than the string has separators |
| Text.RemoveFromAbsent | Backend/main.py:74 | where the pattern does not occur, `replace` copies the text unchanged |
| Text.RemoveAllAbsent | Backend/main.py:74 | `replace` of a pattern that does not occur leaves the string as it is |
| Text.RemoveFromFirst | Backend/main.py:74 | the scan copies everything before the first occurrence, drops that occurrence and resumes after it |
| Text.RemoveAllFirst | Backend/main.py:74 | `replace` keeps everything before the first occurrence, deletes it, and continues with the rest |
| Text.RemoveAllSlice | Backend/main.py:74 | removing a slice of the string that occurs nowhere earlier keeps the text before it and continues the scan right after it |
| Text.RemoveAll | Backend/main.py:74 | its own contract only bounds the length (the result is no longer than the input); `RemoveAllAbsent` and `RemoveAllFirst` pin down what `replace(old, "")` returns |
| Text.RemoveFrom | Backend/main.py:74 | its own contract only bounds the length (no longer than what is left from `k`); `RemoveFromAbsent` and `RemoveFromFirst` pin down the scan |
| Pattern.PrefixAtSlice | Backend/main.py:68 | matching a keyword one character at a time is the same as comparing a slice |
| Pattern.KindAt | Backend/main.py:68 | the first group's alternative that matches at a position, and there is at most one |
| Pattern.MatchAt | Backend/main.py:68 | an anchored match ends inside the text, at its end or just before a newline |
| Pattern.MatchAtSound | Backend/main.py:68 | an anchored match is a word of the pattern with the three groups it reports |
| Pattern.MatchAtComplete | Backend/main.py:68 | every word of the pattern at a position is found there, with the same keyword and column field and a title at least as long |
| Pattern.SearchFrom | Backend/main.py:68 | the match at the first position from `i` on that has one, and no position before it has one |
| Pattern.Search | Backend/main.py:68 | `re.search`: the leftmost anchored match, or none when no position has one |
| Pattern.SearchIsLeftmost | Backend/main.py:68-71 | no match exactly when no substring is a word of the pattern; otherwise a word starts at the match and none starts further left |
| Pattern.SearchWholeDirective | Backend/main.py:68-72 | a text that is a single directive is matched whole, and the groups are its keyword, columns and title |
| Pattern.MatchedTextFirstOccurrence | Backend/main.py:68-74 | the matched text occurs nowhere before the match |
| Charts.StripEach | Backend/main.py:73 | the i-th name is the i-th piece stripped, with one name per piece, in order |
| Charts.MissingColumns | Backend/main.py:101 | the missing names are exactly the requested names that are not columns; the list is empty exactly when all are present |
| Charts.MissingColumnsFirst | Backend/main.py:101 | the first reported missing name is the first requested name, in order, that is not a column |
| Charts.HistogramChart | Backend/main.py:97-104 | no chart exactly when some requested column is missing; otherwise a histogram of all requested columns, every one a data-frame column |
| Charts.HistogramColumns | Backend/main.py:98-99 | a list is used as it is; a string yields one name per comma-separated piece (commas plus one), each piece stripped |
| Charts.GroupKeys | Backend/main.py:131-135 | more than one grouping key exactly when the group field holds `:`; no key holds `:`, and joining the keys with `:` gives back the field, so the keys are `group_col.split(":")` |
| Charts.GroupedBar | Backend/main.py:123-135 | a chart exactly when every grouping key and the trimmed value column are columns, plotting the keys then the value; otherwise `KeyError` naming the first missing key, or "Column not found: <value>" when only the value column is missing |
| Charts.GroupedBarSingleKey | Backend/main.py:123-135 | with one grouping key, the bar chart is drawn exactly when the trimmed group and value columns exist and plots those two; otherwise `KeyError` names the group, or "Column not found: <value>" |
| Charts.PieChart | Backend/main.py:147-157 | a list argument raises `AttributeError` on `strip`; a string gives a pie chart exactly when the trimmed name is a column with at least two distinct values |
| Charts.ScatterPlot | Backend/main.py:181-186 | a chart exactly when both trimmed names are columns, plotting x against y |
| Charts.Message | Backend/main.py:88-89 | `str(e)`: a `KeyError` message is the key between single quotes. An `AttributeError` message is the owner in quotes, "' object has no attribute '", the attribute and a closing quote. A short unpack's message is "not enough values to unpack (expected 2, got ", a numeral that reads back as the count, and ")". A long one is exactly "too many values to unpack (expected 2)" |
| Charts.DecimalRoundTrip | Backend/main.py:80 | the numeral in the "not enough values" message reads back as the count. On the dispatch path that count is always 1, because `split` gives at least one piece; the lemma holds for every count |
| Query.ColumnArgOf | Backend/main.py:73 | the field becomes a list exactly when it holds a comma; the i-th name is the i-th comma-separated piece, stripped; otherwise the field is kept as it is |
| Query.TwoNames | Backend/main.py:80 | unpacking succeeds exactly when the string holds one colon and returns the two sides; a list raises `AttributeError`; otherwise `ValueError` with the piece count |
| Query.BarDispatch | Backend/main.py:79-81 | BAR raises the unpack's error (a list has no `split`; zero or several colons give `ValueError`); with one colon it draws exactly when both trimmed names are columns, plotting that group and value, and otherwise raises `KeyError` naming the group, or "Column not found: <value>" |
| Query.ScatterDispatch | Backend/main.py:84-86 | SCATTER raises exactly when the unpack fails, with the unpack's error; otherwise it draws exactly when both trimmed names are columns, plotting x against y |
| Query.Dispatch | Backend/main.py:76-86 | the keyword's renderer decides. HISTOGRAM never raises and draws the requested columns exactly when every one exists. PIE raises on a list and draws the trimmed column when it exists with two or more values. BAR and SCATTER raise the unpack's error and otherwise draw the two trimmed names exactly when both are columns (BAR then always carries a chart). A chart has the directive's kind and title |
| Query.QueryTitanic | Backend/main.py:68-95 | the question is echoed; a chart comes only from a matched directive, with its kind and title, and plots only data-frame columns |
| Query.ErrorNote | Backend/main.py:89 | the note is exactly "\n[Visualization error: ", then the exception's message, then "]" |
| Query.QueryWithoutDirective | Backend/main.py:68-71 | with no directive in the answer, the answer is returned unchanged and there is no chart |
| Query.ReplaceDropsMatch | Backend/main.py:74 | `replace` of the matched text keeps everything before the match and deletes the match and its later copies |
| Query.QueryWithDirective | Backend/main.py:71-95 | with a directive, the answer is the stripped remainder and the chart is the renderer's; when the renderer raises, "\n[Visualization error: ...]" is appended and there is no chart |
| Query.DispatchBarWithManyNames | Backend/main.py:79-89 | BAR with two or more colons and no comma raises the unpacking `ValueError`, whatever the data frame holds, and the note appended is "\n[Visualization error: too many values to unpack (expected 2)]" |
| Query.TooManyValuesNote | Backend/main.py:80-89 | an unpack of more than two values appends "\n[Visualization error: too many values to unpack (expected 2)]" |
| Query.QueryListForTwoNameKinds | Backend/main.py:73-89 | a comma in the field makes BAR and SCATTER fail on `list.split` and PIE on `list.strip`, with no chart |
| Query.HistogramSplitAgrees | Backend/main.py:97-99 | splitting the field in the dispatcher and splitting it in `create_histogram` request the same columns |

## Left out

- The FastAPI routing and the call to the language model (lines 56-66). The model's answer text is an input.
- Loading the CSV file and remapping `Survived` to Yes/No (lines 17-18). The data frame is abstract: a set of column names, plus a count of distinct values for each column.
- Drawing, PNG rendering and base64 encoding (lines 106-121, 137-145, 159-166, 188-209, `encode_plot`). A chart is represented by its kind, its columns and its title.
- The percentages of `value_counts(normalize=True)` in `create_grouped_bar` (lines 133-135). Only its column lookups are modelled.
- Exceptions raised while drawing, after the column checks pass. Examples are a histogram of a non-numeric column, or a BAR whose group and value column are the same. Pandas and matplotlib raise these from code that is not part of this model.
- Logging (lines 88, 103, 151, 156, 159, 185).
- Frontend/chatbot.py is not part of this model.
- Charts.Message: the unpacking messages follow CPython 3.12 (newer CPython releases may also report the number of values in the "too many values to unpack" message). A `KeyError` message is modelled as the key between single quotes. Python's `repr` switches to double quotes for a key that holds a single quote, and it escapes control characters; the model does neither. The exact wording of pandas' missing-column error depends on the pandas version.
- Charts.GroupedBar: when several keys are missing, the model reports the first one. Pandas may name them differently.
- Text.RemoveAll: requires a non-empty pattern. The text being removed is always a match of the directive pattern, and such a match is never empty.
- Pattern.Search: characters are Unicode code points and there are no regular-expression flags. Python's `.` without DOTALL excludes only `\n`, and the model does the same.

=== FILE: charts.dfy ===
/** The renderers of `Backend/main.py` up to the point where they start to
    draw: the column checks each one makes, and the exceptions it raises.
    Drawing, PNG serialisation and base64 encoding are not modelled; a chart
    that would be drawn is represented by what it was asked to show. */
module Charts {
  import opened Results
  import opened Text
  import Pattern

  /** The loaded data frame as far as the renderers look at it: its column
      names, and for each column the number of distinct non-missing values
      (the length of `df[column].value_counts()`). */
  datatype Dataset = Dataset(columns: set<string>, distinct: string -> nat)

  /** A chart a renderer draws: which renderer, the columns it plots in
      order, and the title. It stands in for the base64-encoded PNG. */
  datatype Chart = Chart(kind: Pattern.Kind, columns: seq<string>, title: string)

  /** Every column `chart` plots is a column of the data frame. */
  predicate DrawsFrom(chart: Chart, ds: Dataset) {
    forall k :: 0 <= k < |chart.columns| ==> chart.columns[k] in ds.columns
  }

  /** The `columns` argument as the dispatcher hands it on: the raw column
      field (a Python `str`) or, when the field held a comma, a list. */
  datatype ColumnArg = Raw(text: string) | Listed(names: seq<string>)

  /** The exceptions raised on the dispatch path. */
  datatype Failure =
    | NoAttribute(owner: string, attribute: string)  // AttributeError
    | UnpackMismatch(got: nat)                       // ValueError from `a, b = parts`
    | MissingKey(key: string)                        // KeyError raised by pandas

  /** `str(e)` for each exception, in the wording of CPython 3.12 and
      pandas. */
  function Message(f: Failure): (r: string)
    ensures f.MissingKey? ==> |r| == |f.key| + 2 && r[1..|r| - 1] == f.key
    ensures f.NoAttribute? ==> |r| > |f.attribute| + 1 && r[|r| - 1 - |f.attribute|..|r| - 1] == f.attribute
    ensures f.MissingKey? ==> r[0] == '\'' && r[|r| - 1] == '\''
    ensures f.NoAttribute? ==> |r| > |f.owner| + |f.attribute| + 28
    ensures f.NoAttribute? ==>
      && r[0] == '\'' && r[1..|f.owner| + 1] == f.owner
      && r[|f.owner| + 1..|r| - |f.attribute| - 1] == "' object has no attribute '"
      && r[|r| - 1] == '\''
    ensures f.UnpackMismatch? && f.got < 2 ==> |r| > 46 && DigitsValue(r[45..|r| - 1]) == f.got
    ensures f.UnpackMismatch? && f.got < 2 ==>
      r[..45] == "not enough values to unpack (expected 2, got " && r[|r| - 1] == ')'
    ensures f.UnpackMismatch? && f.got > 2 ==> r == "too many values to unpack (expected 2)"
  {
    DecimalRoundTrip(if f.UnpackMismatch? then f.got else 0);
    match f
    case NoAttribute(owner, attribute) =>
      "'" + owner + "' object has no attribute '" + attribute + "'"
    case UnpackMismatch(got) =>
      if got < 2 then "not enough values to unpack (expected 2, got " + Decimal(got) + ")"
      else "too many values to unpack (expected 2)"
    case MissingKey(key) => "'" + key + "'"
  }

  /** The decimal numeral of `n`, as `str(n)`. */
  function Decimal(n: nat): (s: string)
    ensures |s| > 0
    decreases n
  {
    var digit := ['0' + (n % 10) as char];
    if n < 10 then digit else Decimal(n / 10) + digit
  }

  /** The number a string of decimal digits denotes. */
  function DigitsValue(s: string): int
    decreases |s|
  {
    if |s| == 0 then 0 else DigitsValue(s[..|s| - 1]) * 10 + (s[|s| - 1] as int - '0' as int)
  }

  /** Reading the numeral back gives the number. */
  lemma {:induction false} DecimalRoundTrip(n: nat)
    ensures DigitsValue(Decimal(n)) == n
    decreases n
  {
    var digit := ['0' + (n % 10) as char];
    if n >= 10 {
      DecimalRoundTrip(n / 10);
      var s := Decimal(n / 10) + digit;
      assert s[..|s| - 1] == Decimal(n / 10);
    }
  }

  /** Each piece with its surrounding whitespace removed, as by
      `[col.strip() for col in pieces]`. */
  function StripEach(pieces: seq<string>): (names: seq<string>)
    ensures |names| == |pieces|
    ensures forall k :: 0 <= k < |names| ==> names[k] == Strip(pieces[k])
    ensures forall k :: 0 <= k < |names| ==> IsTrimmed(names[k])
    ensures forall k, c :: 0 <= k < |names| && c in names[k] ==> c in pieces[k]
  {
    seq(|pieces|, k requires 0 <= k < |pieces| => Strip(pieces[k]))
  }

  /** `[col for col in names if col not in schema]`. */
  function MissingColumns(names: seq<string>, schema: set<string>): (missing: seq<string>)
    ensures forall n :: n in missing <==> n in names && n !in schema
    ensures |missing| == 0 <==> forall k :: 0 <= k < |names| ==> names[k] in schema
  {
    if |names| == 0 then []
    else
      var rest := MissingColumns(names[1..], schema);
      assert names == [names[0]] + names[1..];
      if names[0] in schema then rest else [names[0]] + rest
  }

  /** The first missing name reported is the first name of `names`, in
      order, that is not a column. */
  lemma {:induction false} MissingColumnsFirst(names: seq<string>, schema: set<string>)
    ensures |MissingColumns(names, schema)| > 0 ==>
      exists k :: 0 <= k < |names| && MissingColumns(names, schema)[0] == names[k] && FirstMissing(names, schema, k)
    decreases |names|
  {
    if |names| > 0 {
      var rest := MissingColumns(names[1..], schema);
      if names[0] in schema {
        MissingColumnsFirst(names[1..], schema);
        if |rest| > 0 {
          var k :| 0 <= k < |names[1..]| && rest[0] == names[1..][k] && FirstMissing(names[1..], schema, k);
          assert FirstMissing(names, schema, k + 1);
        }
      } else {
        assert FirstMissing(names, schema, 0);
      }
    }
  }

  /** `names[k]` is the first of `names` that is not in `schema`. */
  predicate FirstMissing(names: seq<string>, schema: set<string>, k: nat) {
    k < |names| && names[k] !in schema && forall j :: 0 <= j < k ==> names[j] in schema
  }

  /** The column list `create_histogram` works on: a `str` argument is split
      on commas and every piece trimmed; a list is used as it is. */
  function HistogramColumns(columns: ColumnArg): (names: seq<string>)
    ensures columns.Listed? ==> names == columns.names
    ensures columns.Raw? ==> |names| == |Split(columns.text, ',')| == multiset(columns.text)[','] + 1
    ensures columns.Raw? ==> forall k :: 0 <= k < |names| ==> names[k] == Strip(Split(columns.text, ',')[k])
  {
    match columns
    case Raw(text) => SplitCount(text, ','); StripEach(Split(text, ','))
    case Listed(names) => names
  }

  /** `create_histogram`: no chart at all when any requested column is
      missing, otherwise one chart overlaying every requested column. */
  function HistogramChart(ds: Dataset, columns: ColumnArg, title: string): (r: Option<Chart>)
    ensures r.None? <==> exists k :: 0 <= k < |HistogramColumns(columns)| && HistogramColumns(columns)[k] !in ds.columns
    ensures r.Some? ==> r.value == Chart(Pattern.Histogram, HistogramColumns(columns), title)
    ensures r.Some? ==> DrawsFrom(r.value, ds)
  {
    var names := HistogramColumns(columns);
    if |MissingColumns(names, ds.columns)| > 0 then None
    else Some(Chart(Pattern.Histogram, names, title))
  }

  /** The grouping keys `create_grouped_bar` hands to `groupby`: the pieces
      of a group field that holds `:`, otherwise the field alone. */
  function GroupKeys(group: string): (keys: seq<string>)
    ensures |keys| >= 1
    ensures |keys| > 1 <==> ':' in group
    ensures forall k :: 0 <= k < |keys| ==> ':' !in keys[k]
    ensures Join(keys, ':') == group
  {
    if ':' in group then (SplitMany(group, ':'); Split(group, ':')) else [group]
  }

  /** With a single grouping key, `create_grouped_bar` draws exactly when
      the trimmed group and value columns both exist. */
  lemma GroupedBarSingleKey(ds: Dataset, group: string, value: string, title: string)
    requires ':' !in Strip(group)
    ensures GroupedBar(ds, group, value, title).Success? <==> Strip(group) in ds.columns && Strip(value) in ds.columns
    ensures GroupedBar(ds, group, value, title).Success? ==>
      GroupedBar(ds, group, value, title).value.columns == [Strip(group), Strip(value)]
    ensures GroupedBar(ds, group, value, title).Failure? ==>
      GroupedBar(ds, group, value, title).error ==
        if Strip(group) !in ds.columns then MissingKey(Strip(group))
        else MissingKey("Column not found: " + Strip(value))
  {
    assert GroupKeys(Strip(group)) == [Strip(group)];
  }

  /** `create_grouped_bar`, as far as its column lookups go: a grouping key
      that the data frame lacks makes `groupby` raise `KeyError` naming the
      first such key; a missing value column makes the column selection
      raise `KeyError("Column not found: <value>")`; otherwise one bar
      cluster per group is drawn. */
  function GroupedBar(ds: Dataset, group: string, value: string, title: string): (r: Result<Chart, Failure>)
    ensures r.Success? <==>
      && (forall k :: 0 <= k < |GroupKeys(Strip(group))| ==> GroupKeys(Strip(group))[k] in ds.columns)
      && Strip(value) in ds.columns
    ensures r.Success? ==> r.value == Chart(Pattern.Bar, GroupKeys(Strip(group)) + [Strip(value)], title)
    ensures r.Failure? ==> r.error.MissingKey?
    ensures r.Failure? && (forall k :: 0 <= k < |GroupKeys(Strip(group))| ==> GroupKeys(Strip(group))[k] in ds.columns) ==>
      r.error == MissingKey("Column not found: " + Strip(value))
    ensures r.Failure? && !(forall k :: 0 <= k < |GroupKeys(Strip(group))| ==> GroupKeys(Strip(group))[k] in ds.columns) ==>
      exists k :: 0 <= k < |GroupKeys(Strip(group))| && r.error == MissingKey(GroupKeys(Strip(group))[k])
        && FirstMissing(GroupKeys(Strip(group)), ds.columns, k)
    ensures r.Success? ==> DrawsFrom(r.value, ds)
  {
    var keys := GroupKeys(Strip(group));
    var v := Strip(value);
    var missing := MissingColumns(keys, ds.columns);
    MissingColumnsFirst(keys, ds.columns);
    if |missing| > 0 then Failure(MissingKey(missing[0]))
    else if v !in ds.columns then Failure(MissingKey("Column not found: " + v))
    else Success(Chart(Pattern.Bar, keys + [v], title))
  }

  /** `create_pie_chart`. The argument must be a `str` (a list has no
      `strip`); no chart for a missing column or one with fewer than two
      distinct values. */
  function PieChart(ds: Dataset, column: ColumnArg, title: string): (r: Result<Option<Chart>, Failure>)
    ensures r.Failure? <==> column.Listed?
    ensures r.Failure? ==> r.error == NoAttribute("list", "strip")
    ensures column.Raw? ==> (r.value.Some? <==> Strip(column.text) in ds.columns && ds.distinct(Strip(column.text)) >= 2)
    ensures r.Success? && r.value.Some? ==> r.value.value == Chart(Pattern.Pie, [Strip(column.text)], title)
    ensures r.Success? && r.value.Some? ==> DrawsFrom(r.value.value, ds)
  {
    match column
    case Listed(_) => Failure(NoAttribute("list", "strip"))
    case Raw(text) =>
      var c := Strip(text);
      if c !in ds.columns then Success(None)
      else if ds.distinct(c) < 2 then Success(None)
      else Success(Some(Chart(Pattern.Pie, [c], title)))
  }

  /** `create_scatter_plot`: no chart unless both trimmed names are columns. */
  function ScatterPlot(ds: Dataset, x: string, y: string, title: string): (r: Option<Chart>)
    ensures r.Some? <==> Strip(x) in ds.columns && Strip(y) in ds.columns
    ensures r.Some? ==> r.value == Chart(Pattern.Scatter, [Strip(x), Strip(y)], title)
    ensures r.Some? ==> DrawsFrom(r.value, ds)
  {
    var xc := Strip(x);
    var yc := Strip(y);
    if xc !in ds.columns || yc !in ds.columns then None
    else Some(Chart(Pattern.Scatter, [xc, yc], title))
  }
}

=== FILE: pattern.dfy ===
/** The directive pattern of `query_titanic`,
    `(HISTOGRAM|BAR|PIE|SCATTER):([^\|]+)\|(.+)`, written out as an explicit
    matcher. `Spells` is the language of the pattern; `MatchAt` is what
    Python's backtracking matcher settles on at one start position, and
    `Search` is `re.search`: the match at the leftmost position that has one. */
module Pattern {
  import opened Results
  import opened Text

  datatype Kind = Histogram | Bar | Pie | Scatter

  /** The literal of each alternative of the first group. */
  function Keyword(k: Kind): string {
    match k
    case Histogram => "HISTOGRAM"
    case Bar => "BAR"
    case Pie => "PIE"
    case Scatter => "SCATTER"
  }

  /** The three groups of a match: the keyword, the column field and the title. */
  datatype Directive = Directive(kind: Kind, field: string, title: string)

  /** A match of the pattern: `s[start..end]` is `group(0)`. */
  datatype Match = Match(start: nat, end: nat, directive: Directive)

  /** `w` is a word of the pattern's language, read with groups `d`: `[^\|]+`
      is one or more characters other than `|`, and `.+` is one or more
      characters other than a newline (Python's `.` without DOTALL). */
  ghost predicate Spells(w: string, d: Directive) {
    && w == Keyword(d.kind) + ":" + d.field + "|" + d.title
    && |d.field| > 0 && '|' !in d.field
    && |d.title| > 0 && '\n' !in d.title
  }

  /** Some substring of `s` that starts at `i` is a word of the pattern. */
  ghost predicate PatternAt(s: string, i: nat) {
    exists e: nat, d: Directive :: i <= e <= |s| && Spells(s[i..e], d)
  }

  /** `w` occurs in `s` at index `i`, compared one character at a time. */
  predicate PrefixAt(s: string, i: nat, w: string)
    decreases |w|
  {
    |w| == 0 || (i < |s| && s[i] == w[0] && PrefixAt(s, i + 1, w[1..]))
  }

  /** The character-by-character comparison is the comparison of a slice. */
  lemma {:induction false} PrefixAtSlice(s: string, i: nat, w: string)
    requires i <= |s|
    ensures PrefixAt(s, i, w) <==> i + |w| <= |s| && s[i..i + |w|] == w
    decreases |w|
  {
    if |w| > 0 && i < |s| {
      PrefixAtSlice(s, i + 1, w[1..]);
      if i + |w| <= |s| {
        var v := s[i..i + |w|];
        assert v[0] == s[i] && v[1..] == s[i + 1..i + |w|];
        assert v == [v[0]] + v[1..] && w == [w[0]] + w[1..];
        assert v == w <==> v[0] == w[0] && v[1..] == w[1..];
      }
    }
  }

  predicate KeywordAt(s: string, i: nat, k: Kind) {
    PrefixAt(s, i, Keyword(k))
  }

  /** The alternative of the first group that matches at `i`. The four
      keywords start with different letters, so at most one does, and its
      first letter says which one to try. */
  function KindAt(s: string, i: nat): (r: Option<Kind>)
    ensures forall k :: KeywordAt(s, i, k) <==> r == Some(k)
  {
    if i >= |s| then None
    else
      var k :=
        if s[i] == 'H' then Histogram
        else if s[i] == 'B' then Bar
        else if s[i] == 'P' then Pie
        else Scatter;
      if KeywordAt(s, i, k) then Some(k) else None
  }

  /** The match the pattern makes when its search is anchored at `i`, if any.
      `[^\|]+` cannot run past a `|`, so the column field ends at the first
      `|` after the colon; `.+` is greedy, so the title runs to the next
      newline or to the end of `s`. */
  function MatchAt(s: string, i: nat): (r: Option<Match>)
    ensures r.Some? ==> r.value.start == i && i < r.value.end <= |s|
    ensures r.Some? ==> r.value.end == |s| || s[r.value.end] == '\n'
  {
    match KindAt(s, i)
    case None => None
    case Some(k) =>
      var c := i + |Keyword(k)|;
      if c >= |s| || s[c] != ':' then None
      else
        var p := IndexFrom(s, '|', c + 1);
        if p == |s| || p == c + 1 then None
        else
          var e := IndexFrom(s, '\n', p + 1);
          if e == p + 1 then None
          else Some(Match(i, e, Directive(k, s[c + 1..p], s[p + 1..e])))
  }

  /** `s[i..j][a..b]` is `s[i + a..i + b]`. */
  lemma SliceOfSlice(s: string, i: nat, j: nat, a: nat, b: nat)
    requires i <= j <= |s| && a <= b <= j - i
    ensures s[i..j][a..b] == s[i + a..i + b]
  {
    assert forall x :: 0 <= x < b - a ==> s[i..j][a..b][x] == s[i + a + x];
  }

  /** The pieces of a word of the pattern, by position. */
  lemma SpellsPieces(w: string, d: Directive)
    requires Spells(w, d)
    ensures var n := |Keyword(d.kind)|; var p := n + 1 + |d.field|;
      && |w| == p + 1 + |d.title|
      && w[..n] == Keyword(d.kind)
      && w[n] == ':'
      && w[n + 1..p] == d.field
      && w[p] == '|'
      && w[p + 1..] == d.title
  {
  }

  /** A substring of `s` assembled from pieces at known positions is a word
      of the pattern. */
  lemma SpellsFromPieces(s: string, i: nat, j: nat, d: Directive)
    requires |d.field| > 0 && '|' !in d.field && |d.title| > 0 && '\n' !in d.title
    requires var c := i + |Keyword(d.kind)|; var p := c + 1 + |d.field|;
      && p < j <= |s|
      && KeywordAt(s, i, d.kind)
      && s[c] == ':'
      && s[c + 1..p] == d.field
      && s[p] == '|'
      && s[p + 1..j] == d.title
    ensures Spells(s[i..j], d)
  {
    var c := i + |Keyword(d.kind)|;
    var p := c + 1 + |d.field|;
    PrefixAtSlice(s, i, Keyword(d.kind));
    assert s[i..j] == s[i..c] + [s[c]] + s[c + 1..p] + [s[p]] + s[p + 1..j];
  }

  /** What `MatchAt` returns is a word of the pattern. */
  lemma MatchAtSound(s: string, i: nat)
    requires MatchAt(s, i).Some?
    ensures Spells(s[i..MatchAt(s, i).value.end], MatchAt(s, i).value.directive)
  {
    var m := MatchAt(s, i).value;
    var d := m.directive;
    var c := i + |Keyword(d.kind)|;
    var p := IndexFrom(s, '|', c + 1);
    assert KeywordAt(s, i, d.kind);
    assert d.field == s[c + 1..p] && d.title == s[p + 1..m.end];
    SpellsFromPieces(s, i, m.end, d);
  }

  /** `MatchAt` from the positions of the pieces of a word in `s`. */
  lemma MatchAtFromPieces(s: string, i: nat, j: nat, d: Directive)
    requires |d.field| > 0 && '|' !in d.field && |d.title| > 0 && '\n' !in d.title
    requires var c := i + |Keyword(d.kind)|; var p := c + 1 + |d.field|;
      && p < j <= |s|
      && KeywordAt(s, i, d.kind)
      && s[c] == ':'
      && s[c + 1..p] == d.field
      && s[p] == '|'
      && s[p + 1..j] == d.title
    ensures MatchAt(s, i).Some?
    ensures MatchAt(s, i).value.directive.kind == d.kind
    ensures MatchAt(s, i).value.directive.field == d.field
    ensures d.title <= MatchAt(s, i).value.directive.title
    ensures j <= MatchAt(s, i).value.end
  {
  }

  /** Any word of the pattern starting at `i` is found by `MatchAt`, with the
      same keyword and column field and a title no longer than the one
      `MatchAt` picks: the greedy title is the longest possible. */
  lemma MatchAtComplete(s: string, i: nat, j: nat, d: Directive)
    requires i <= j <= |s| && Spells(s[i..j], d)
    ensures MatchAt(s, i).Some?
    ensures MatchAt(s, i).value.directive.kind == d.kind
    ensures MatchAt(s, i).value.directive.field == d.field
    ensures d.title <= MatchAt(s, i).value.directive.title
    ensures j <= MatchAt(s, i).value.end
  {
    var w := s[i..j];
    var n := |Keyword(d.kind)|;
    var q := n + 1 + |d.field|;
    SpellsPieces(w, d);
    SliceOfSlice(s, i, j, 0, n);
    SliceOfSlice(s, i, j, n + 1, q);
    SliceOfSlice(s, i, j, q + 1, j - i);
    PrefixAtSlice(s, i, Keyword(d.kind));
    assert s[i + n] == w[n];
    assert s[i + q] == w[q];
    MatchAtFromPieces(s, i, j, d);
  }

  /** `re.search` from position `i` on: the first position with a match. */
  function SearchFrom(s: string, i: nat): (r: Option<Match>)
    requires i <= |s|
    ensures r.Some? ==> i <= r.value.start && MatchAt(s, r.value.start) == r
    ensures r.Some? ==> forall j :: i <= j < r.value.start ==> MatchAt(s, j).None?
    ensures r.None? ==> forall j :: i <= j <= |s| ==> MatchAt(s, j).None?
    decreases |s| - i
  {
    var here := MatchAt(s, i);
    if here.Some? || i == |s| then here else SearchFrom(s, i + 1)
  }

  /** Python's `re.search(pattern, s)`. */
  function Search(s: string): (r: Option<Match>)
    ensures r.Some? ==> MatchAt(s, r.value.start) == r
    ensures r.Some? ==> forall j :: 0 <= j < r.value.start ==> MatchAt(s, j).None?
    ensures r.None? ==> forall j :: 0 <= j <= |s| ==> MatchAt(s, j).None?
  {
    SearchFrom(s, 0)
  }

  /** `Search` agrees with the regular-expression reading of `re.search`: it
      fails exactly when no substring of `s` is a word of the pattern, and
      otherwise returns a word at the leftmost position where one starts. */
  lemma SearchIsLeftmost(s: string)
    ensures Search(s).None? <==> forall j :: 0 <= j <= |s| ==> !PatternAt(s, j)
    ensures Search(s).Some? ==> PatternAt(s, Search(s).value.start)
    ensures Search(s).Some? ==> forall j :: 0 <= j < Search(s).value.start ==> !PatternAt(s, j)
  {
    forall j | 0 <= j <= |s| && PatternAt(s, j) ensures MatchAt(s, j).Some? {
      var e: nat, d: Directive :| j <= e <= |s| && Spells(s[j..e], d);
      MatchAtComplete(s, j, e, d);
    }
    if Search(s).Some? {
      var m := Search(s).value;
      MatchAtSound(s, m.start);
      assert m.start <= m.end <= |s| && Spells(s[m.start..m.end], m.directive);
      assert PatternAt(s, m.start);
    }
  }

  /** A text that is a directive and nothing else is matched whole. */
  lemma SearchWholeDirective(s: string, d: Directive)
    requires Spells(s, d)
    ensures Search(s) == Some(Match(0, |s|, d))
  {
    assert s[0..|s|] == s;
    MatchAtComplete(s, 0, |s|, d);
    var m := MatchAt(s, 0).value;
    MatchAtSound(s, 0);
    SpellsPieces(s, d);
    SpellsPieces(s[0..m.end], m.directive);
  }

  /** The matched text `group(0)` first occurs in `s` where it was matched:
      an earlier copy would itself be a word of the pattern further left. */
  lemma MatchedTextFirstOccurrence(s: string, m: Match)
    requires Search(s) == Some(m)
    ensures forall j :: 0 <= j < m.start ==> !OccursAt(s, s[m.start..m.end], j)
  {
    var w := s[m.start..m.end];
    MatchAtSound(s, m.start);
    SearchIsLeftmost(s);
    forall j | 0 <= j <= |s| && OccursAt(s, w, j) ensures PatternAt(s, j) {
      assert Spells(s[j..j + |w|], m.directive);
    }
  }
}

=== FILE: query.dfy ===
/** `query_titanic`: find the directive in the language model's answer,
    take it out of the answer shown to the user, and hand it to the matching
    renderer. The call to the language model is not modelled; its answer
    text is the input. */
module Query {
  import opened Results
  import opened Text
  import opened Pattern
  import opened Charts

  /** The JSON object the endpoint returns. */
  datatype Response = Response(question: string, answer: string, visualization: Option<Chart>)

  /** The column field as the dispatcher passes it on: a list of trimmed
      comma-separated names when the field holds a comma, otherwise the
      field itself, untrimmed. */
  function ColumnArgOf(field: string): (c: ColumnArg)
    ensures c.Listed? <==> ',' in field
    ensures c.Raw? ==> c.text == field
    ensures c.Listed? ==> |c.names| == |Split(field, ',')| >= 2
    ensures c.Listed? ==> forall k :: 0 <= k < |c.names| ==> c.names[k] == Strip(Split(field, ',')[k])
    ensures c.Listed? ==> forall k :: 0 <= k < |c.names| ==> IsTrimmed(c.names[k]) && ',' !in c.names[k]
  {
    if ',' in field then (SplitMany(field, ','); Listed(StripEach(Split(field, ','))))
    else Raw(field)
  }

  /** The unpacking `a, b = columns.split(":")`: a list has no `split`, and
      a string must hold exactly one colon. */
  function TwoNames(columns: ColumnArg): (r: Result<(string, string), Failure>)
    ensures columns.Listed? ==> r == Failure(NoAttribute("list", "split"))
    ensures columns.Raw? ==> (r.Success? <==> multiset(columns.text)[':'] == 1)
    ensures columns.Raw? && r.Failure? ==> r.error == UnpackMismatch(multiset(columns.text)[':'] + 1)
    ensures r.Success? ==> columns.Raw? && columns.text == r.value.0 + [':'] + r.value.1
    ensures r.Success? ==> ':' !in r.value.0 && ':' !in r.value.1
  {
    match columns
    case Listed(_) => Failure(NoAttribute("list", "split"))
    case Raw(text) =>
      var parts := Split(text, ':');
      SplitCount(text, ':');
      if |parts| == 2 then
        assert parts[1..] == [parts[1]];
        Success((parts[0], parts[1]))
      else
        Failure(UnpackMismatch(|parts|))
  }

  /** The BAR branch: unpack the field into a group and a value column,
      then `create_grouped_bar`. A chart that comes back has exactly one
      grouping key: the multi-key branch of `create_grouped_bar` is never
      reached from here. */
  function BarDispatch(ds: Dataset, columns: ColumnArg, title: string): (r: Result<Option<Chart>, Failure>)
    ensures TwoNames(columns).Failure? ==> r == Failure(TwoNames(columns).error)
    ensures TwoNames(columns).Success? ==>
      (r.Success? <==> Strip(TwoNames(columns).value.0) in ds.columns && Strip(TwoNames(columns).value.1) in ds.columns)
    ensures TwoNames(columns).Success? && r.Failure? ==>
      r.error == if Strip(TwoNames(columns).value.0) !in ds.columns then MissingKey(Strip(TwoNames(columns).value.0))
                 else MissingKey("Column not found: " + Strip(TwoNames(columns).value.1))
    ensures r.Success? ==> TwoNames(columns).Success? && r.value.Some?
    ensures r.Success? ==> r.value.value.columns == [Strip(TwoNames(columns).value.0), Strip(TwoNames(columns).value.1)]
    ensures r.Success? ==> r.value.value.kind == Bar && r.value.value.title == title
    ensures r.Success? ==> DrawsFrom(r.value.value, ds)
  {
    match TwoNames(columns)
    case Failure(e) => Failure(e)
    case Success((group, value)) =>
      assert ':' !in Strip(group);
      GroupedBarSingleKey(ds, group, value, title);
      match GroupedBar(ds, group, value, title)
      case Failure(e) => Failure(e)
      case Success(chart) => Success(Some(chart))
  }

  /** The SCATTER branch: unpack the field into x and y, then
      `create_scatter_plot`. */
  function ScatterDispatch(ds: Dataset, columns: ColumnArg, title: string): (r: Result<Option<Chart>, Failure>)
    ensures r.Success? <==> TwoNames(columns).Success?
    ensures TwoNames(columns).Failure? ==> r == Failure(TwoNames(columns).error)
    ensures TwoNames(columns).Success? ==>
      (r.value.Some? <==> Strip(TwoNames(columns).value.0) in ds.columns && Strip(TwoNames(columns).value.1) in ds.columns)
    ensures r.Success? && r.value.Some? ==>
      r.value.value.columns == [Strip(TwoNames(columns).value.0), Strip(TwoNames(columns).value.1)]
    ensures r.Success? && r.value.Some? ==> r.value.value.kind == Scatter && r.value.value.title == title
    ensures r.Success? && r.value.Some? ==> DrawsFrom(r.value.value, ds)
  {
    match TwoNames(columns)
    case Failure(e) => Failure(e)
    case Success((x, y)) => Success(ScatterPlot(ds, x, y, title))
  }

  /** The `try` block of `query_titanic`: the keyword selects one renderer.
      Whatever chart comes back plots only columns of the data frame, under
      the directive's title. A histogram request never raises, and draws
      when every requested column exists; a pie request raises on a list and
      otherwise draws for an existing column with two or more values; BAR
      and SCATTER raise when the unpack fails, and otherwise draw when both
      trimmed names are columns (BAR raises `KeyError` when not). */
  function Dispatch(ds: Dataset, kind: Kind, columns: ColumnArg, title: string): (r: Result<Option<Chart>, Failure>)
    ensures r.Success? && r.value.Some? ==> r.value.value.kind == kind && r.value.value.title == title
    ensures r.Success? && r.value.Some? ==> DrawsFrom(r.value.value, ds)
    ensures kind == Histogram ==> r.Success?
    ensures kind == Histogram ==>
      (r.value.Some? <==> forall k :: 0 <= k < |HistogramColumns(columns)| ==> HistogramColumns(columns)[k] in ds.columns)
    ensures kind == Histogram && r.value.Some? ==> r.value.value.columns == HistogramColumns(columns)
    ensures kind == Pie && r.Success? && r.value.Some? ==> columns.Raw? && r.value.value.columns == [Strip(columns.text)]
    ensures kind == Bar && r.Success? ==> r.value.Some?
    ensures kind in {Bar, Scatter} && r.Success? && r.value.Some? ==>
      TwoNames(columns).Success? &&
      r.value.value.columns == [Strip(TwoNames(columns).value.0), Strip(TwoNames(columns).value.1)]
    ensures kind == Pie ==> (r.Failure? <==> columns.Listed?)
    ensures kind == Pie && columns.Raw? ==>
      (r.value.Some? <==> Strip(columns.text) in ds.columns && ds.distinct(Strip(columns.text)) >= 2)
    ensures kind in {Bar, Scatter} && TwoNames(columns).Failure? ==> r == Failure(TwoNames(columns).error)
    ensures kind == Bar && TwoNames(columns).Success? ==>
      (r.Success? <==> Strip(TwoNames(columns).value.0) in ds.columns && Strip(TwoNames(columns).value.1) in ds.columns)
    ensures kind == Scatter && TwoNames(columns).Success? ==> r.Success?
    ensures kind == Scatter && TwoNames(columns).Success? ==>
      (r.value.Some? <==> Strip(TwoNames(columns).value.0) in ds.columns && Strip(TwoNames(columns).value.1) in ds.columns)
  {
    match kind
    case Histogram => Success(HistogramChart(ds, columns, title))
    case Bar => BarDispatch(ds, columns, title)
    case Pie => PieChart(ds, columns, title)
    case Scatter => ScatterDispatch(ds, columns, title)
  }

  /** The text appended to the answer when the renderer raised. */
  function ErrorNote(e: Failure): (note: string)
    ensures |note| == |Message(e)| + 24
    ensures note[0] == '\n' && note[|note| - 1] == ']'
    ensures note[23..|note| - 1] == Message(e)
    ensures note[..23] == "\n[Visualization error: "
  {
    "\n[Visualization error: " + Message(e) + "]"
  }

  /** `query_titanic` on the model's answer `text`. It always returns a
      response: an exception from the renderer becomes a note in the answer. */
  function QueryTitanic(ds: Dataset, question: string, text: string): (r: Response)
    ensures r.question == question
    ensures r.visualization.Some? ==> Search(text).Some?
    ensures r.visualization.Some? ==> r.visualization.value.title == Search(text).value.directive.title
    ensures r.visualization.Some? ==> r.visualization.value.kind == Search(text).value.directive.kind
    ensures r.visualization.Some? ==> DrawsFrom(r.visualization.value, ds)
    ensures r.visualization.Some? && r.visualization.value.kind == Bar ==> |r.visualization.value.columns| == 2
  {
    match Search(text)
    case None => Response(question, text, None)
    case Some(m) =>
      var d := m.directive;
      var shown := Strip(RemoveAll(text, text[m.start..m.end]));
      match Dispatch(ds, d.kind, ColumnArgOf(d.field), d.title)
      case Success(chart) => Response(question, shown, chart)
      case Failure(e) => Response(question, shown + ErrorNote(e), None)
  }

  /** The text before the match, then the text after it with every further
      copy of the matched text removed. */
  function Unmatched(text: string, m: Match): string
    requires m.start < m.end <= |text|
  {
    text[..m.start] + RemoveFrom(text, text[m.start..m.end], m.end)
  }

  /** The answer shown once the directive is matched: `Unmatched`, trimmed. */
  function Shown(text: string, m: Match): string
    requires m.start < m.end <= |text|
  {
    Strip(Unmatched(text, m))
  }

  /** With no directive anywhere in the text, the answer is passed through
      untouched and there is no chart. */
  lemma QueryWithoutDirective(ds: Dataset, question: string, text: string)
    requires forall j :: 0 <= j <= |text| ==> !PatternAt(text, j)
    ensures QueryTitanic(ds, question, text) == Response(question, text, None)
  {
    SearchIsLeftmost(text);
  }

  /** `replace` on the whole answer deletes the match itself and every later
      copy of it, and nothing before the match. */
  lemma ReplaceDropsMatch(text: string, m: Match)
    requires Search(text) == Some(m)
    ensures RemoveAll(text, text[m.start..m.end]) == Unmatched(text, m)
  {
    MatchedTextFirstOccurrence(text, m);
    RemoveAllSlice(text, m.start, m.end);
  }

  /** The answer and chart once a directive is found: the shown text and the
      renderer's chart, or the shown text with the error note and no chart. */
  lemma QueryWithDirective(ds: Dataset, question: string, text: string, m: Match)
    requires Search(text) == Some(m)
    ensures var r := QueryTitanic(ds, question, text);
      match Dispatch(ds, m.directive.kind, ColumnArgOf(m.directive.field), m.directive.title)
      case Success(chart) => r.answer == Shown(text, m) && r.visualization == chart
      case Failure(e) => r.answer == Shown(text, m) + ErrorNote(e) && r.visualization.None?
  {
    ReplaceDropsMatch(text, m);
  }

  /** BAR on a comma-free field with two or more colons raises at the
      two-way unpack, before `create_grouped_bar` is called and whatever the
      data frame holds; the note reads "too many values to unpack (expected
      2)", and `QueryWithDirective` gives the response. */
  lemma DispatchBarWithManyNames(ds: Dataset, field: string, title: string)
    requires ',' !in field && multiset(field)[':'] >= 2
    ensures Dispatch(ds, Bar, ColumnArgOf(field), title) == Failure(UnpackMismatch(multiset(field)[':'] + 1))
    ensures ErrorNote(UnpackMismatch(multiset(field)[':'] + 1)) ==
      "\n[Visualization error: " + "too many values to unpack (expected 2)" + "]"
  {
    TooManyValuesNote(multiset(field)[':'] + 1);
  }

  /** The note for a two-way unpack of more than two values. */
  lemma TooManyValuesNote(got: nat)
    requires got > 2
    ensures ErrorNote(UnpackMismatch(got)) ==
      "\n[Visualization error: " + "too many values to unpack (expected 2)" + "]"
  {
    var message := Message(UnpackMismatch(got));
    assert message == "too many values to unpack (expected 2)";
    assert ErrorNote(UnpackMismatch(got)) == "\n[Visualization error: " + message + "]";
  }

  /** A column field holding a comma reaches BAR, SCATTER and PIE as a list,
      on which `split` or `strip` fails. */
  lemma QueryListForTwoNameKinds(ds: Dataset, question: string, text: string, m: Match)
    requires Search(text) == Some(m)
    requires m.directive.kind != Histogram
    requires ',' in m.directive.field
    ensures QueryTitanic(ds, question, text)
      == Response(question, Shown(text, m) + ErrorNote(NoAttribute("list", if m.directive.kind == Pie then "strip" else "split")), None)
  {
    var d := m.directive;
    var e := NoAttribute("list", if d.kind == Pie then "strip" else "split");
    assert ColumnArgOf(d.field).Listed?;
    assert Dispatch(ds, d.kind, ColumnArgOf(d.field), d.title) == Failure(e);
    QueryWithDirective(ds, question, text, m);
  }

  /** Splitting the histogram field in the dispatcher changes nothing:
      `create_histogram` splits and trims a `str` argument the same way. */
  lemma HistogramSplitAgrees(ds: Dataset, field: string, title: string)
    ensures HistogramChart(ds, ColumnArgOf(field), title) == HistogramChart(ds, Raw(field), title)
  {
  }
}

=== FILE: results.dfy ===
/** Option and Result datatypes: `None` stands for Python's `None`, `Failure`
    for an exception that was raised and has not been caught yet. */
module Results {

  datatype Option<+T> = None | Some(value: T)

  datatype Result<+T, +E> = Success(value: T) | Failure(error: E)
}

=== FILE: text.dfy ===
/** The few Python string operations the dispatcher relies on: `str.strip()`,
    `str.split(sep)` for a one-character separator, and `str.replace(old, "")`. */
module Text {

  /** The characters for which Python's `str.isspace()` holds; these are the
      characters `str.strip()` (called with no argument) removes. */
  predicate IsSpace(c: char) {
    var n := c as int;
    || n == 0x20
    || 0x09 <= n <= 0x0D
    || 0x1C <= n <= 0x1F
    || n == 0x85
    || n == 0xA0
    || n == 0x1680
    || 0x2000 <= n <= 0x200A
    || n == 0x2028
    || n == 0x2029
    || n == 0x202F
    || n == 0x205F
    || n == 0x3000
  }

  predicate AllSpace(s: string) {
    forall k :: 0 <= k < |s| ==> IsSpace(s[k])
  }

  /** Neither end of `s` is whitespace. */
  predicate IsTrimmed(s: string) {
    |s| == 0 || (!IsSpace(s[0]) && !IsSpace(s[|s| - 1]))
  }

  /** Length of the whitespace run that starts `s`. */
  function LeadingSpaces(s: string): (n: nat)
    ensures n <= |s|
    ensures forall k :: 0 <= k < n ==> IsSpace(s[k])
    ensures n < |s| ==> !IsSpace(s[n])
  {
    if |s| > 0 && IsSpace(s[0]) then
      var m := LeadingSpaces(s[1..]);
      assert forall k :: 1 <= k < m + 1 ==> s[k] == s[1..][k - 1];
      m + 1
    else
      0
  }

  /** Index at which the whitespace run that ends `s` starts. */
  function TrailingStart(s: string): (m: nat)
    ensures m <= |s|
    ensures forall k :: m <= k < |s| ==> IsSpace(s[k])
    ensures m > 0 ==> !IsSpace(s[m - 1])
  {
    if |s| > 0 && IsSpace(s[|s| - 1]) then
      var m := TrailingStart(s[..|s| - 1]);
      assert forall k :: m <= k < |s| - 1 ==> s[k] == s[..|s| - 1][k];
      m
    else
      |s|
  }

  /** Python's `s.strip()`: `s` without its leading and trailing whitespace. */
  function Strip(s: string): (r: string)
    ensures IsTrimmed(r)
    ensures forall c :: c in r ==> c in s
    ensures exists a :: 0 <= a <= a + |r| <= |s| && r == s[a..a + |r|] && AllSpace(s[..a]) && AllSpace(s[a + |r|..])
  {
    var a := LeadingSpaces(s);
    if a == |s| then
      assert AllSpace(s[..|s|]) && AllSpace(s[|s|..]) && s[|s|..|s|] == [];
      []
    else
      var b := TrailingStart(s);
      assert !IsSpace(s[a]);
      var r := s[a..b];
      assert r[0] == s[a] && r[|r| - 1] == s[b - 1];
      assert AllSpace(s[..a]) && AllSpace(s[a + |r|..]);
      assert forall k :: 0 <= k < |r| ==> r[k] == s[a + k];
      r
  }

  /** `s` is `p + r + q` with `p` and `q` whitespace and `r` trimmed exactly
      when `Strip(s)` is `r`: the characterisation of `str.strip()` that does
      not depend on how the ends are scanned. */
  lemma StripCharacterized(p: string, r: string, q: string)
    requires AllSpace(p) && AllSpace(q) && IsTrimmed(r)
    ensures Strip(p + r + q) == r
  {
    var s := p + r + q;
    var a := LeadingSpaces(s);
    if |r| == 0 {
      assert AllSpace(s) by {
        forall k | 0 <= k < |s| ensures IsSpace(s[k]) {
          if k < |p| { assert s[k] == p[k]; } else { assert s[k] == q[k - |p|]; }
        }
      }
      assert a == |s|;
    } else {
      assert s[|p|] == r[0];
      assert forall k :: 0 <= k < |p| ==> s[k] == p[k];
      assert a == |p|;
      var b := TrailingStart(s);
      assert s[|p| + |r| - 1] == r[|r| - 1];
      assert forall k :: |p| + |r| <= k < |s| ==> s[k] == q[k - |p| - |r|];
      assert b == |p| + |r|;
      assert s[a..b] == r;
    }
  }

  /** Index of the first `c` at or after `i`, or `|s|` when there is none. */
  function IndexFrom(s: string, c: char, i: nat): (j: nat)
    requires i <= |s|
    ensures i <= j <= |s|
    ensures c !in s[i..j]
    ensures j < |s| ==> s[j] == c
    decreases |s| - i
  {
    if i == |s| || s[i] == c then i
    else
      var j := IndexFrom(s, c, i + 1);
      assert s[i..j] == [s[i]] + s[i + 1..j];
      j
  }

  /** `IndexFrom` finds the first `c`: when `s[i..p]` holds no `c` and
      `s[p]` is one, the search from `i` stops at `p`. */
  lemma IndexFromIs(s: string, c: char, i: nat, p: nat)
    requires i <= p < |s| && s[p] == c
    requires c !in s[i..p]
    ensures IndexFrom(s, c, i) == p
  {
  }

  /** Python's `sep.join(parts)` for a one-character separator. */
  function Join(parts: seq<string>, sep: char): string
  {
    if |parts| == 0 then []
    else if |parts| == 1 then parts[0]
    else parts[0] + [sep] + Join(parts[1..], sep)
  }

  /** Python's `s.split(sep)` for a one-character separator: the pieces
      between consecutive separators, `sep.join` of which gives back `s`. */
  function Split(s: string, sep: char): (parts: seq<string>)
    ensures |parts| >= 1
    ensures forall k :: 0 <= k < |parts| ==> sep !in parts[k]
    ensures Join(parts, sep) == s
    decreases |s|
  {
    var i := IndexFrom(s, sep, 0);
    assert s[0..i] == s[..i];
    if i == |s| then
      assert s[0..i] == s;
      [s]
    else
      var rest := Split(s[i + 1..], sep);
      var parts := [s[..i]] + rest;
      assert parts[1..] == rest;
      assert s == s[..i] + [sep] + s[i + 1..];
      parts
  }

  /** The other half of the round trip: splitting a join of separator-free
      pieces gives back the pieces. */
  lemma {:induction false} SplitJoin(parts: seq<string>, sep: char)
    requires |parts| >= 1
    requires forall k :: 0 <= k < |parts| ==> sep !in parts[k]
    ensures Split(Join(parts, sep), sep) == parts
    decreases |parts|
  {
    var s := Join(parts, sep);
    if |parts| == 1 {
      assert s == parts[0];
    } else {
      var p := parts[0];
      var rest := Join(parts[1..], sep);
      assert s == p + [sep] + rest;
      var i := IndexFrom(s, sep, 0);
      assert s[0..|p|] == p;
      assert s[|p|] == sep;
      IndexFromIs(s, sep, 0, |p|);
      assert s[..i] == p;
      assert s[i + 1..] == rest;
      SplitJoin(parts[1..], sep);
      assert Split(s, sep) == [p] + parts[1..];
    }
  }

  /** `split` yields one piece more than there are separators. */
  lemma {:induction false} SplitCount(s: string, sep: char)
    ensures |Split(s, sep)| == multiset(s)[sep] + 1
    decreases |s|
  {
    var i := IndexFrom(s, sep, 0);
    if i == |s| {
      assert s[0..i] == s;
    } else {
      assert s == s[..i] + [sep] + s[i + 1..];
      assert s[0..i] == s[..i];
      assert multiset(s) == multiset(s[..i]) + multiset{sep} + multiset(s[i + 1..]);
      SplitCount(s[i + 1..], sep);
    }
  }

  /** A string holding the separator splits into at least two pieces. */
  lemma SplitMany(s: string, sep: char)
    requires sep in s
    ensures |Split(s, sep)| >= 2
  {
  }

  /** `pat` occurs in `s` at index `j`. */
  predicate OccursAt(s: string, pat: string, j: nat) {
    j + |pat| <= |s| && s[j..j + |pat|] == pat
  }

  /** Python's `s.replace(pat, "")`: scanning left to right, every
      non-overlapping occurrence of `pat` is deleted. */
  function RemoveAll(s: string, pat: string): (r: string)
    requires |pat| > 0
    ensures |r| <= |s|
  {
    RemoveFrom(s, pat, 0)
  }

  /** What the scan of `RemoveAll` produces from index `k` of `s` on. */
  function RemoveFrom(s: string, pat: string, k: nat): (r: string)
    requires |pat| > 0 && k <= |s|
    ensures |r| <= |s| - k
    decreases |s| - k
  {
    if |s| - k < |pat| then s[k..]
    else if s[k..k + |pat|] == pat then RemoveFrom(s, pat, k + |pat|)
    else [s[k]] + RemoveFrom(s, pat, k + 1)
  }

  /** Where `pat` does not occur from `k` on, the scan copies the rest of
      `s` unchanged. */
  lemma {:induction false} RemoveFromAbsent(s: string, pat: string, k: nat)
    requires |pat| > 0 && k <= |s|
    requires forall j :: k <= j <= |s| ==> !OccursAt(s, pat, j)
    ensures RemoveFrom(s, pat, k) == s[k..]
    decreases |s| - k
  {
    if |s| - k >= |pat| {
      assert !OccursAt(s, pat, k);
      RemoveFromAbsent(s, pat, k + 1);
      assert [s[k]] + s[k + 1..] == s[k..];
    }
  }

  /** Where `pat` does not occur, `replace` changes nothing. */
  lemma RemoveAllAbsent(s: string, pat: string)
    requires |pat| > 0
    requires forall j :: 0 <= j <= |s| ==> !OccursAt(s, pat, j)
    ensures RemoveAll(s, pat) == s
  {
    RemoveFromAbsent(s, pat, 0);
  }

  /** Putting `s[k]` back in front of the slice that follows it. */
  lemma ConsOntoSlice(s: string, k: nat, i: nat, rest: string)
    requires k < i <= |s|
    ensures [s[k]] + (s[k + 1..i] + rest) == s[k..i] + rest
  {
  }

  /** The scan copies everything up to the first occurrence of `pat` at or
      after `k`, deletes that occurrence and carries on after it. */
  lemma {:induction false} RemoveFromFirst(s: string, pat: string, k: nat, i: nat)
    requires |pat| > 0 && k <= i
    requires OccursAt(s, pat, i)
    requires forall j :: k <= j < i ==> !OccursAt(s, pat, j)
    ensures RemoveFrom(s, pat, k) == s[k..i] + RemoveFrom(s, pat, i + |pat|)
    decreases i - k
  {
    if k == i {
      assert s[k..k] == [];
    } else {
      assert !OccursAt(s, pat, k);
      assert RemoveFrom(s, pat, k) == [s[k]] + RemoveFrom(s, pat, k + 1);
      RemoveFromFirst(s, pat, k + 1, i);
      ConsOntoSlice(s, k, i, RemoveFrom(s, pat, i + |pat|));
    }
  }

  /** `replace` copies `s` up to the first occurrence of `pat`, at `i`,
      deletes it and carries on after it. */
  lemma RemoveAllFirst(s: string, pat: string, i: nat)
    requires |pat| > 0
    requires OccursAt(s, pat, i)
    requires forall j :: 0 <= j < i ==> !OccursAt(s, pat, j)
    ensures RemoveAll(s, pat) == s[..i] + RemoveFrom(s, pat, i + |pat|)
  {
    RemoveFromFirst(s, pat, 0, i);
    assert s[0..i] == s[..i];
  }

  /** `RemoveAllFirst` for a pattern given as the slice `s[i..j]` of the
      string itself, as when the matched text is removed. */
  lemma RemoveAllSlice(s: string, i: nat, j: nat)
    requires i < j <= |s|
    requires forall k :: 0 <= k < i ==> !OccursAt(s, s[i..j], k)
    ensures RemoveAll(s, s[i..j]) == s[..i] + RemoveFrom(s, s[i..j], j)
  {
    RemoveAllFirst(s, s[i..j], i);
  }
}
